=== FILE: README.md ===
# POSLens lens-and-store engine in Dafny

This project models the core of POSLens, an Objective-C library of *lenses*. A
lens is a read/write view onto one node of an immutable, nested settings value,
and a *value store* persists that value.

- **Value policy** (`LensValue`). A value is a leaf (`Num`, `Text`) or a `Node`
  holding a `map<string, Value>`. Plain objects, which the library reads by
  key-value coding, and dictionaries, which it reads by subscript, both become
  that map. `ValueForKey` is `pos_valueForKey:`. `SetValueForKey` is
  `pos_setValue:forKey:` and returns a fresh copy; `nil` removes the field.
- **Value stores** (`ValueStores`). The store protocol is an all-or-nothing
  `saveValue:`/`loadValue:` of one root. There are two stores. The in-memory
  store is `POSEphemeralValueStore`. The persistent base store is
  `POSPersistentValueStore`: it encodes the root with a codec and hands the
  bytes to `saveData:`, `loadData:` and `removeData:`. A backend is a byte slot
  plus a `Faults` record saying which of these three primitives fail. The
  `Faults` record stands in for device I/O.
- **Lenses** (`Lenses`). A lens is `Root(default)` or
  `Child(parent, key, default)`, built by `lensForKey:` and its variants.
  - `Resolve` walks the path over one root snapshot. At each level it takes the
    parent's value at the key, or that level's default, or `nil`.
  - `Write` sets the new value into the resolved parent, then writes the
    cloned parent into its own parent, and so on up to a new root. A missing
    parent takes its default, but only when the write assigns a nondefault
    value (see below).
- **Bound lenses** (`MutableLenses`). `CurrentValue` is the `value` property.
  `UpdateValue`, `UpdateValueWithBlock`, `RemoveValue` and `ResetValue` are the
  write operations, and `LensWithValue` and `LensWithDefaultValue` are the two
  factories. Every write loads the root once, computes the new root, and saves
  it once. A failure leaves the store exactly as it was and notifies no one.
- **Notifications** (`Notifications`). A successful update at key path P
  notifies exactly the key paths that are prefixes of P. `Publish` fans the new
  values out to subscribed lenses.
- **Equality helpers** (`Equality`). These are the nil-safe comparisons of
  `POSEquality.h`.

Choices the library's documentation leaves open:
- **Leaf parent.** Setting a key on a leaf answers `nil` (POSLensValue.h:38).
  A lens write whose parent resolves to a leaf therefore fails with an update
  error, the same as a missing parent with no default.
- **Load error on write.** If the root cannot be loaded, a write fails with the
  load error and writes nothing. The read path (`value`) shows an unreadable
  store as an empty one, so readers see the defaults or `nil`.
- **Notify on every success.** A successful update notifies even when the value
  is unchanged. The model does not suppress redundant notifications.
- **Update block input.** The update block gets the lens's resolved value,
  default included. It reads the same snapshot that the write starts from.
- **Default-only writes.** A lens inserts its default only if one of its
  properties is assigned a nondefault value (POSLens.h:76-77). The model reads
  "nondefault" as "different from what the written lens presents now". A
  write under a parent that the object does not hold, which leaves the written
  lens presenting what it presented, keeps the root as it was. This covers
  assigning a lens its own default and removing a value that only a default
  provides. Such a write still succeeds, saves the unchanged root and
  notifies.
- **Removing an absent value.** `removeValue:` documents no failure for a
  missing parent (POSLens.h:159-166). Removing a value the lens does not
  present (it reads its default, or nil) under a path that cannot be written
  succeeds without storing anything. It still notifies. A removal that would
  have to insert a missing parent with no default, to reset a value that a
  default presents, fails with an update error, as `updateValue:` with nil
  does.
- **Values that cannot be archived.** `saveValue:` accepts any lens value
  (POSValueStore.h:25), but only persistable values can be archived
  (POSLensValue.h:46-50). The persistent store refuses a value its codec
  cannot encode with an internal error and leaves the backend as it was.

## Model

| member | source | states |
|---|---|---|
| Outcomes.Code | Classes/ErrorHandling/NSError+POSL.h:16-20 | The three error kinds carry codes 10 (system), 11 (update) and 12 (internal). |
| Outcomes.CodesAreDistinct | Classes/ErrorHandling/NSError+POSL.h:16-20 | Two error kinds have the same code exactly when they are the same kind. |
| Equality.ObjectsAreEqual | Classes/Utils/POSEquality.h:13-15 | Two nils compare equal. A nil never compares equal to an object. Two objects compare by `isEqual`. |
| Equality.ObjectsEqualityReflexive | Classes/Utils/POSEquality.h:13-15 | The helper is reflexive whenever `isEqual` is. |
| Equality.ObjectsEqualitySymmetric | Classes/Utils/POSEquality.h:13-15 | The helper is symmetric whenever `isEqual` is. |
| Equality.StringsAreEqual | Classes/Utils/POSEquality.h:17-19 | Under the nil rule, two nullable strings compare equal exactly when both are nil or both hold the same string. |
| Equality.ArraysAreEqual | Classes/Utils/POSEquality.h:21-23 | The same holds for nullable arrays. |
| Equality.DictionariesAreEqual | Classes/Utils/POSEquality.h:25-27 | The same holds for nullable dictionaries. |
| Equality.OrderedSetsAreEqual | Classes/Utils/POSEquality.h:29-31 | The same holds for nullable ordered sets. |
| LensValue.ValueForKey | Classes/Lens/POSLensValue.h:24-28 | A read answers a value only when the owner is a node holding the key, and then answers that field. A missing key, a leaf owner or a nil owner reads nil. |
| LensValue.SetValueForKey | Classes/Lens/POSLensValue.h:30-40 | A set succeeds exactly on a node and returns a node. The result's keys are the owner's keys plus `key`, or minus `key` when the value is nil. |
| LensValue.GetAfterSet | Classes/Lens/POSLensValue.h:24-40 | Reading `key` after setting it returns the value set, or nil after a removal. |
| LensValue.SetFrame | Classes/Lens/POSLensValue.h:30-33 | Setting one key leaves every other key's value unchanged. |
| LensValue.SetCurrentIsIdentity | Classes/Lens/POSLensValue.h:30-40 | Setting a key to the value it already holds returns an equal value. |
| LensValue.SetIdempotent | Classes/Lens/POSLensValue.h:30-40 | Setting the same key and value twice equals setting it once. |
| LensValue.SetOverwrites | Classes/Lens/POSLensValue.h:30-40 | A later set of a key overwrites an earlier one. |
| ValueStores.SaveData | Classes/ValueStores/POSPersistentValueStore.h:19-23 | Saving bytes succeeds exactly when the backend's save works. Success stores the bytes; failure keeps the old bytes and reports a system error. |
| ValueStores.LoadData | Classes/ValueStores/POSPersistentValueStore.h:25-30 | Loading bytes succeeds exactly when the backend's load works, and returns the persisted bytes or nothing. |
| ValueStores.RemoveData | Classes/ValueStores/POSPersistentValueStore.h:32-35 | Removing bytes succeeds exactly when the backend's remove works, and leaves no bytes. Failure keeps the old bytes. |
| ValueStores.EphemeralStore | Classes/ValueStores/POSEphemeralValueStore.h:13-16 | Right after `initWithValue:`, loading returns that value, nil included. |
| ValueStores.SaveValue | Classes/ValueStores/POSValueStore.h:13-25 | A failed save leaves the store exactly as it was. The in-memory store never fails. A save keeps the kind of store and its backend's faults. |
| ValueStores.LoadValue | Classes/ValueStores/POSValueStore.h:27-37 | The in-memory store loads what it holds. Only a persistent store can fail to load. |
| ValueStores.LoadedOrNil | Classes/ValueStores/POSValueStore.h:30-35 | With the error ignored, the nullable result is nil on error and the loaded value otherwise. |
| ValueStores.SaveThenLoad | Classes/ValueStores/POSValueStore.h:20-37 | A successful save followed by a load returns the saved value, nil included. This needs a lossless codec and a readable backend. |
| ValueStores.SaveNilClears | Classes/ValueStores/POSValueStore.h:20-25 | A successful save of nil clears the store, and a later load returns nil with no error. |
| ValueStores.FailedSaveKeepsValue | Classes/ValueStores/POSValueStore.h:13-16 | After a failed save, a load returns what it returned before. |
| ValueStores.PersistentSaveRoutes | Classes/ValueStores/POSPersistentValueStore.h:13-35 | A value that can be archived is encoded and passed to `saveData:`. Nil is routed to `removeData:`. |
| ValueStores.SaveDataFailureKeepsBytes | Classes/ValueStores/POSPersistentValueStore.h:19-23 | A failing `saveData:` makes the save of a value fail, with a system error when the value can be archived, and the previous bytes remain. |
| ValueStores.UnarchivableIsInternalError | Classes/Lens/POSLensValue.h:46-50 | Saving a value the codec cannot archive fails with an internal error and leaves the backend as it was. |
| ValueStores.LoadDecodes | Classes/ValueStores/POSPersistentValueStore.h:25-30 | Loading decodes the bytes that `loadData:` returns. |
| ValueStores.UndecodableIsInternalError | Classes/ValueStores/POSPersistentValueStore.h:25-30 | Bytes that do not decode to a lens value give an internal error, not a value. |
| ValueStores.AbsentDataIsNil | Classes/ValueStores/POSPersistentValueStore.h:25-30 | Absent bytes load as nil with no error. |
| ValueStores.LoadDataFailureIsSystemError | Classes/ValueStores/POSPersistentValueStore.h:25-30 | A failing `loadData:` makes the load fail with a system error. |
| ValueStores.NilMeansEmptyOrError | Classes/ValueStores/POSValueStore.h:30-35 | The nullable load result is nil exactly for an empty store or a failed load. Only the error tells the two apart. |
| ValueStores.EphemeralSaveThenLoad | Classes/ValueStores/POSEphemeralValueStore.h:13-16 | The in-memory store always accepts a save and then loads the saved value, nil included. |
| Lenses.LensForKeyWithDefault | Classes/Lens/POSLens.h:73-79 | The child lens extends the key path by one key and carries the default. Building it touches no store. |
| Lenses.LensForKey | Classes/Lens/POSLens.h:65-71 | The child lens extends the key path by one key and has no default. |
| Lenses.Subscript | Classes/Lens/POSLens.h:55-63 | The subscript is the same lens as `lensForKey:`. |
| Lenses.Resolve | Classes/Lens/POSLens.h:25-32 | A node the object holds at the path is what the lens presents, whatever the defaults. A lens presents nil only when nothing is stored there and it has no default. |
| Lenses.MissingPropertyYieldsDefault | Classes/Lens/POSLens.h:46-47 | A property its parent does not hold, or a missing root, presents the lens's default, or nil when it has none. |
| Lenses.AbsentAncestorYieldsDefault | Classes/Lens/POSLens.h:46-47 | If an ancestor is absent and no level below it has a default, the lens resolves to its own default, or nil. |
| Lenses.Assign | Classes/Lens/POSLens.h:128-137 | The clone-and-insert walk succeeds exactly when every parent resolves to a node, and otherwise fails with an update error. After success the lens reads the written value, or its default after a removal. |
| Lenses.AssignStores | Classes/Lens/POSLensValue.h:30-33 | After the walk stores a node at a path, the object holds exactly that node there. |
| Lenses.Write | Classes/Lens/POSLens.h:128-137 | A write succeeds exactly when every parent resolves to a node, and otherwise fails with an update error. After success the lens reads the written value, or its default after a removal, and stays writable. |
| Lenses.CoAddressedReadAfterWrite | Classes/Lens/POSLens.h:139-146 | After a write that assigns a nondefault value, every lens on the same key path reads the written value, or its own default after a removal. A default-only write leaves every such lens reading what it read. |
| Lenses.SiblingsUnchanged | Classes/Lens/POSLens.h:38-44 | A write under one child of an ancestor lens leaves every lens built below a different child of that same ancestor lens reading what it read before. |
| Lenses.DefaultMaterialised | Classes/Lens/POSLens.h:73-79 | When a defaulted node is absent, a write below it stores a node there exactly when it changes what the written lens presents. The stored node is a copy of the default with the written key set. |
| Lenses.MissingParentFails | Classes/Lens/POSLens.h:128-135 | A write under an absent parent with no default fails with an update error. |
| Lenses.WriteIdempotent | Classes/Lens/POSLens.h:128-137 | Writing the same value again over the result of a write produces the same root. |
| Notifications.NotifiedPaths | Classes/Lens/POSLens.h:38-44 | An update notifies exactly the key paths that are prefixes of the updated path. |
| Notifications.AncestorsNotified | Classes/Lens/POSLens.h:38-44 | The updated lens and each of its ancestors are notified. |
| Notifications.SiblingsQuiet | Classes/Lens/POSLens.h:38-44 | Lenses whose key paths part at some level never notify each other. |
| Notifications.Publish | Classes/Lens/POSLens.h:34-47 | Each notified observer emits its new resolved value, no other observer emits, and nothing emits when nothing was notified. |
| MutableLenses.CurrentValue | Classes/Lens/POSLens.h:25-32 | `value` resolves the path over the loaded root. An unreadable store reads as an empty one. |
| MutableLenses.UpdateValue | Classes/Lens/POSLens.h:128-137 | A failure leaves the store unchanged and notifies nothing. Over a loadable root, an unwritable path (a parent absent with no default, or a leaf) fails with an update error. A writable path succeeds exactly when saving the new root succeeds, and then the store is what that save left. Success needs a loadable root, and notifies exactly the prefixes of the path. On the in-memory store it succeeds exactly when the path is writable. |
| MutableLenses.UpdateValueWithBlock | Classes/Lens/POSLens.h:139-157 | A failure leaves the store unchanged and notifies nothing. Success needs a loadable root and a block that accepted the current value. |
| MutableLenses.RemoveValue | Classes/Lens/POSLens.h:159-166 | A failed removal changes nothing and notifies nothing. A successful one notifies exactly the prefixes of the path. On the in-memory store the lens then reads its default, or nil, and removing a value the lens does not present always succeeds. |
| MutableLenses.RemoveAbsentSucceeds | Classes/Lens/POSLens.h:159-166 | On a loadable store whose primitives never fail, removing a value the lens does not present succeeds, even when the path cannot be written. |
| MutableLenses.ResetValue | Classes/Lens/POSLens.h:119-126 | Reset succeeds exactly when the store loads, and otherwise reports the load error. |
| MutableLenses.EmitAfter | Classes/Lens/POSLens.h:34-53 | After a write, the observers on notified paths emit their values over the store the write left. A failed write emits nothing. |
| MutableLenses.LensWithValue | Classes/Lens/POSLens.h:182-187 | The result is a root lens over an in-memory store, and it reads the given value. |
| MutableLenses.LensWithDefaultValue | Classes/Lens/POSLens.h:189-202 | The factory returns a lens exactly when the initial load succeeds, and otherwise returns that load's error. The lens reads the stored root, or the default when the store is empty. |
| MutableLenses.UpdateThenRead | Classes/Lens/POSLens.h:128-146 | After a successful update that assigns a nondefault value, every co-addressed lens reads the new value, or its own default after a removal. After a default-only update, every co-addressed lens reads what it read before. |
| MutableLenses.SiblingsKeepValue | Classes/Lens/POSLens.h:38-44 | After a successful update, lenses built below a different child of the same ancestor lens are not notified and read what they read before. |
| MutableLenses.FailedUpdateChangesNothing | Classes/ValueStores/POSValueStore.h:13-16 | After a failed update, every lens reads what it read before and nothing is notified. |
| MutableLenses.FailingBackendKeepsValue | Classes/Lens/POSLens.h:128-135 | When the backend cannot write bytes, every update fails and the earlier value stays readable. |
| MutableLenses.RemoveYieldsDefault | Classes/Lens/POSLens.h:159-166 | After a successful removal, the lens reads its default, or nil. |
| MutableLenses.UpdateIdempotent | Classes/Lens/POSLens.h:128-137 | After a successful update, repeating it leaves the store as the first call left it, whatever the second call's outcome. On a store whose primitives never fail, the second call succeeds too. |
| MutableLenses.RemoveTwice | Classes/Lens/POSLens.h:159-166 | After a successful removal, a second removal leaves the store as the first left it, and the lens still reads its default or nil. On a store whose primitives never fail, the second removal succeeds too. |
| MutableLenses.BlockWritesLikeUpdate | Classes/Lens/POSLens.h:139-157 | A block that returns `v` for the current value writes exactly what `updateValue:` with `v` writes. |
| MutableLenses.BlockErrorPassesThrough | Classes/Lens/POSLens.h:150-157 | A block error is returned verbatim, and nothing is written or notified. |
| MutableLenses.IncrementsAddUp | Classes/Lens/POSLens.h:139-157 | N increment blocks in a row raise a writable counter by exactly N. |
| Scenarios.ProfileAgeScenario | Classes/Lens/POSLens.h:73-79 | Over an empty store, with an empty-node default on the root lens and on `profile`, `profile.age` with default 0 reads 0. Writing 30 succeeds and reads 30, and `profile` then holds `age = 30`. |
| Scenarios.MissingDefaultScenario | Classes/Lens/POSLens.h:128-135 | Writing 30 at `profile.age` over an empty store, with no default on the root lens or on `profile`, fails with an update error and changes nothing. |
| Scenarios.DefaultValueScenario | Classes/Lens/POSLens.h:73-79 | Under an absent `profile` with a default, assigning `age` its default 0, or removing it, succeeds and leaves the store as it was. A lens on `profile` without a default still reads nil. |
| Scenarios.DescendantNotNotifiedScenario | Classes/Lens/POSLens.h:25-44 | Writing a node at `a` that adds `b` does not notify the lens on `a.b`, although that lens goes from nil to a value. |
| Scenarios.RemoveAbsentScenario | Classes/Lens/POSLens.h:159-166 | Removing `profile.age` when neither `profile` nor a default for it exists succeeds and leaves the store as it was. |
| Scenarios.SharedPathDefaultsScenario | Classes/Lens/POSLens.h:38-44 | Two lenses on path `a` with different defaults: an update below one changes what a lens below the other reads, without notifying it. |
| Scenarios.AncestorPropagationScenario | Classes/Lens/POSLens.h:38-44 | An update at `a.b.c` notifies `a.b.c`, `a.b`, `a` and the root. It does not notify `a.d` or `a.b.c.x`. |
| Scenarios.PersonEmailScenario | Tests/TestData/POSPersonSettings.h:13-35 | Writing a person's `privacySettings.email` changes the email and leaves the name and age unchanged. |

## Left out

- The file, keychain and user-defaults backends and their factory methods (POSLens.h:204-240) are left out because they are operating-system I/O. POSFileValueStore.h, POSKeychainValueStore.h and POSUserDefaultsValueStore.h are not part of this model. The persistent base store treats only absent data as "nothing saved"; reading an empty file as empty is left to the file backend.
- The signal mechanics are not modelled: emitting the current value on subscription, the emitting thread, and multicast (POSLens.h:49-53). Only which key paths are notified, and what each notified lens then reads, are modelled.
- Mutual exclusion across threads and lens instances (POSLens.h:143-146) is not modelled. Each update is one atomic step on a store threaded through the calls, so the counter property holds for sequential increments only.
- The archiving byte format is a `Codec` parameter. Properties that need save-then-load carry the assumption that the codec is lossless.
- Key-value coding on arbitrary objects (POSLensValue.h:54-55) is not modelled. An object is a string-keyed map, so setting a key an object does not declare is not rejected.
- NSCopying is not modelled because values are immutable Dafny datatypes.
- Error construction and formatting (NSError+POSL.h, NSError+POSLens.h) and the assertion macros (NSException+POSL.h) are left out. Errors are the three codes only.
- The factories' repacking of thrown exceptions into errors (POSLens.h:177-178) is not modelled, because the model throws nothing.
- POSLens and POSMutableLens share one `Lens` datatype. The read-only type differs only in which operations a caller may apply.
- Lenses below the updated path are never notified, even when the update adds their node or changes their value. This goes against POSLens.h:28-30, which promises a notification when a node that did not exist is added. It follows from the prefix rule the model uses for propagation (POSLens.h:38-44). Scenarios.DescendantNotNotifiedScenario exhibits the case.
- Lenses are notified by key path only. A lens whose ancestors carry different defaults from the updated lens's ancestors can present a changed value without being notified, because what it presents depends on its own defaults. Scenarios.SharedPathDefaultsScenario exhibits the case; the frame lemmas only cover lenses built from the same ancestor lens.
- A backend's `Faults` record is fixed: each byte primitive fails on every call or on none. A backend that fails once and then works is not modelled. No property depends on two calls having the same outcome, except where it assumes a store whose primitives never fail.
- MutableLenses.UpdateThenRead: requires a faithful store (in-memory, or persistent with a lossless codec and a readable backend), because a backend that cannot load presents `nil`. A co-addressed lens with other defaults does not see a default-only update, because that update inserts nothing.
- MutableLenses.IncrementsAddUp: requires a store whose primitives never fail, with a codec that archives every value, and a lens path that is already writable. Otherwise an increment may fail, as the source allows.

=== FILE: equality.dfy ===
/**
 Null-safe equality helpers. Each compares two nullable objects: two `nil`s are
 equal, `nil` never equals an object, and two objects are compared by the
 type's own equality. The receiver of the underlying message is the left
 argument, so a `nil` on the left with an object on the right answers NO, as a
 message sent to `nil` does.
 */
module Equality {
  import opened Outcomes

  /** Nil-safe equality: with a `nil` right argument the answer is whether
      the left one is `nil` too; otherwise the left object is asked whether it
      equals the right one, by the caller-supplied `isEqual`. */
  function ObjectsAreEqual<T>(l: Option<T>, r: Option<T>, isEqual: (T, T) -> bool): (eq: bool)
    ensures l.None? && r.None? ==> eq
    ensures eq ==> (l.None? <==> r.None?)
    ensures l.Some? && r.Some? ==> (eq <==> isEqual(l.value, r.value))
  {
    if r.None? then l.None? else l.Some? && isEqual(l.value, r.value)
  }

  /** The helper is reflexive whenever the underlying equality is. */
  lemma ObjectsEqualityReflexive<T>(isEqual: (T, T) -> bool)
    requires forall x: T :: isEqual(x, x)
    ensures forall o: Option<T> :: ObjectsAreEqual(o, o, isEqual)
  {
  }

  /** The helper is symmetric whenever the underlying equality is. */
  lemma ObjectsEqualitySymmetric<T>(isEqual: (T, T) -> bool)
    requires forall x: T, y: T :: isEqual(x, y) == isEqual(y, x)
    ensures forall l: Option<T>, r: Option<T> :: ObjectsAreEqual(l, r, isEqual) == ObjectsAreEqual(r, l, isEqual)
  {
  }

  /** The typed helpers: with the type's own exact equality, the nil rule
      makes each helper agree with equality of the nullable values. */
  function StringsAreEqual(l: Option<string>, r: Option<string>): (eq: bool)
    ensures eq <==> l == r
  {
    ObjectsAreEqual(l, r, (a: string, b: string) => a == b)
  }

  function ArraysAreEqual<T(==)>(l: Option<seq<T>>, r: Option<seq<T>>): (eq: bool)
    ensures eq <==> l == r
  {
    ObjectsAreEqual(l, r, (a: seq<T>, b: seq<T>) => a == b)
  }

  function DictionariesAreEqual<K(==), V(==)>(l: Option<map<K, V>>, r: Option<map<K, V>>): (eq: bool)
    ensures eq <==> l == r
  {
    ObjectsAreEqual(l, r, (a: map<K, V>, b: map<K, V>) => a == b)
  }

  /** An ordered set: a sequence without repeated elements. */
  type OrderedSet<T(==)> = s: seq<T> | forall i, j :: 0 <= i < j < |s| ==> s[i] != s[j]
    witness []

  function OrderedSetsAreEqual<T(==)>(l: Option<OrderedSet<T>>, r: Option<OrderedSet<T>>): (eq: bool)
    ensures eq <==> l == r
  {
    ObjectsAreEqual(l, r, (a: OrderedSet<T>, b: OrderedSet<T>) => a == b)
  }
}

=== FILE: lens_value.dfy ===
/**
 The lens policy: a keyed read and a copy-on-write keyed write over immutable
 values. Plain objects (read and written by field name) and dictionaries (read
 and written by subscript) share one view here: a node holding a map from key
 to child value. Scalars such as numbers and strings are leaves with no keys.
 */
module LensValue {
  import opened Outcomes

  datatype Value =
    | Num(n: int)
    | Text(s: string)
    | Node(fields: map<string, Value>)

  /** `pos_valueForKey:` sent to a nullable owner. A missing key, a leaf owner
      and a `nil` owner all answer `nil`; reading never fails. */
  function ValueForKey(owner: Option<Value>, key: string): (r: Option<Value>)
    ensures r.Some? ==> owner.Some? && owner.value.Node? && key in owner.value.fields
    ensures owner.Some? && owner.value.Node? && key in owner.value.fields ==> r == Some(owner.value.fields[key])
  {
    if owner.Some? && owner.value.Node? && key in owner.value.fields then
      Some(owner.value.fields[key])
    else
      None
  }

  /** `pos_setValue:forKey:`: a fresh copy of `owner` with the field `key` set
      to `value`, or removed when `value` is `nil`. The receiver is an
      immutable value and is left as it was. A leaf has no properties to set,
      so it answers `nil`. */
  function SetValueForKey(owner: Value, value: Option<Value>, key: string): (r: Option<Value>)
    ensures r.Some? <==> owner.Node?
    ensures r.Some? ==> r.value.Node?
    ensures r.Some? && value.Some? ==> r.value.fields.Keys == owner.fields.Keys + {key}
    ensures r.Some? && value.None? ==> r.value.fields.Keys == owner.fields.Keys - {key}
  {
    match owner
    case Node(fields) =>
      if value.Some? then Some(Node(fields[key := value.value]))
      else Some(Node(map k | k in fields && k != key :: fields[k]))
    case _ => None
  }

  /** Reading a key back after setting it yields what was set: the value, or
      `nil` after a removal. */
  lemma GetAfterSet(owner: Value, value: Option<Value>, key: string)
    requires owner.Node?
    ensures ValueForKey(SetValueForKey(owner, value, key), key) == value
  {
  }

  /** Setting one key leaves every other key's value as it was. */
  lemma SetFrame(owner: Value, value: Option<Value>, key: string, other: string)
    requires owner.Node?
    requires other != key
    ensures ValueForKey(SetValueForKey(owner, value, key), other) == ValueForKey(Some(owner), other)
  {
  }

  /** Setting a key to the value it already holds (or removing an absent key)
      gives back an equal value. */
  lemma SetCurrentIsIdentity(owner: Value, key: string)
    requires owner.Node?
    ensures SetValueForKey(owner, ValueForKey(Some(owner), key), key) == Some(owner)
  {
    var r := SetValueForKey(owner, ValueForKey(Some(owner), key), key);
    assert r.value.fields == owner.fields;
  }

  /** Setting the same key and value twice equals setting it once. */
  lemma SetIdempotent(owner: Value, value: Option<Value>, key: string)
    requires owner.Node?
    ensures SetValueForKey(SetValueForKey(owner, value, key).value, value, key)
         == SetValueForKey(owner, value, key)
  {
    var once := SetValueForKey(owner, value, key).value;
    var twice := SetValueForKey(once, value, key).value;
    assert twice.fields == once.fields;
  }

  /** A later set of the same key overwrites an earlier one. */
  lemma SetOverwrites(owner: Value, first: Option<Value>, second: Option<Value>, key: string)
    requires owner.Node?
    ensures SetValueForKey(SetValueForKey(owner, first, key).value, second, key)
         == SetValueForKey(owner, second, key)
  {
    var a := SetValueForKey(SetValueForKey(owner, first, key).value, second, key).value;
    var b := SetValueForKey(owner, second, key).value;
    assert a.fields == b.fields;
  }
}

=== FILE: lenses.dfy ===
/**
 Lens paths over one root value, independent of any store. A lens is the root
 lens, or a child lens built from a parent lens by `lensForKey:` and friends;
 every level may carry a default value. Reading walks the path downwards;
 writing clones each ancestor with the new child inserted, bottom-up, and
 yields the new root — all computed from one snapshot of the root.
 */
module Lenses {
  import opened Outcomes
  import opened LensValue

  datatype Lens =
    | Root(default: Option<Value>)
    | Child(parent: Lens, key: string, default: Option<Value>)

  /** The key path from the root value to the addressed node. */
  function Keys(l: Lens): (ks: seq<string>)
    ensures |ks| == Depth(l)
  {
    match l
    case Root(_) => []
    case Child(p, k, _) => Keys(p) + [k]
  }

  /** How many keys lie between the root and the addressed node. */
  function Depth(l: Lens): (n: nat)
    ensures n == 0 <==> l.Root?
  {
    match l
    case Root(_) => 0
    case Child(p, _, _) => Depth(p) + 1
  }

  /** `a` is `l` itself or one of the lenses `l` was built from. */
  predicate AncestorOrSelf(a: Lens, l: Lens) {
    a == l || (l.Child? && AncestorOrSelf(a, l.parent))
  }

  // ---------------------------------------------------------------------------
  // Building lenses

  /** `lensForKey:defaultValue:`. Building a lens reads and writes nothing. */
  function LensForKeyWithDefault(l: Lens, key: string, default: Option<Value>): (r: Lens)
    ensures Keys(r) == Keys(l) + [key]
    ensures r.default == default
    ensures r.Child? && r.parent == l
  {
    Child(l, key, default)
  }

  /** `lensForKey:`: one more key, no default. */
  function LensForKey(l: Lens, key: string): (r: Lens)
    ensures Keys(r) == Keys(l) + [key]
    ensures r.default == None
    ensures r.Child? && r.parent == l
  {
    LensForKeyWithDefault(l, key, None)
  }

  /** `objectForKeyedSubscript:`, the fluent spelling of `lensForKey:`. */
  function Subscript(l: Lens, key: string): (r: Lens)
    ensures r == LensForKey(l, key)
  {
    Child(l, key, None)
  }

  // ---------------------------------------------------------------------------
  // Reading

  /** The node the underlying object holds at the lens's key path, with no
      default applied: `nil` where the object has no such node. */
  function Stored(root: Option<Value>, l: Lens): (v: Option<Value>)
  {
    match l
    case Root(_) => root
    case Child(p, k, _) => ValueForKey(Stored(root, p), k)
  }

  /** The value a lens presents over a root snapshot: at each level, the
      parent's value read at the key, or the level's default (or `nil`) when
      that is absent. A node the object holds always wins over the defaults,
      and a lens presents `nil` only when nothing is stored and it has no
      default of its own. */
  function Resolve(root: Option<Value>, l: Lens): (v: Option<Value>)
    ensures Stored(root, l).Some? ==> v == Stored(root, l)
    ensures v.None? ==> Stored(root, l).None? && l.default.None?
  {
    match l
    case Root(d) => root.OrElse(d)
    case Child(p, k, d) => ValueForKey(Resolve(root, p), k).OrElse(d)
  }

  /** A property that does not exist, because its parent presents no node
      holding its key or because there is no root at all, presents the lens's
      default, or `nil` when it has none. */
  lemma MissingPropertyYieldsDefault(root: Option<Value>, l: Lens)
    requires l.Root? ==> root.None?
    requires l.Child? ==> ValueForKey(Resolve(root, l.parent), l.key).None?
    ensures Resolve(root, l) == l.default
  {
  }

  /** If a node on the way is absent and no level below it has a default,
      the lens presents its own default, or `nil`. */
  lemma {:induction false} AbsentAncestorYieldsDefault(root: Option<Value>, a: Lens, l: Lens)
    requires l.Child? && AncestorOrSelf(a, l.parent)
    requires Resolve(root, a) == None
    requires NoDefaultsBelow(a, l.parent)
    ensures Resolve(root, l) == l.default
    decreases l
  {
    if l.parent != a {
      AbsentAncestorYieldsDefault(root, a, l.parent);
    }
  }

  /** No level strictly below `a`, down to and including `l`, has a default. */
  predicate NoDefaultsBelow(a: Lens, l: Lens) {
    a == l || (l.Child? && l.default == None && NoDefaultsBelow(a, l.parent))
  }

  /** What a lens presents depends on the root only through what any of its
      ancestors presents. */
  lemma {:induction false} ResolveThroughAncestor(r1: Option<Value>, r2: Option<Value>, a: Lens, l: Lens)
    requires AncestorOrSelf(a, l)
    requires Resolve(r1, a) == Resolve(r2, a)
    ensures Resolve(r1, l) == Resolve(r2, l)
    decreases l
  {
    if l != a {
      ResolveThroughAncestor(r1, r2, a, l.parent);
    }
  }

  // ---------------------------------------------------------------------------
  // Writing

  /** Every ancestor of `l` presents a node that a child can be set into. */
  predicate Writable(root: Option<Value>, l: Lens) {
    match l
    case Root(_) => true
    case Child(p, _, _) =>
      var pv := Resolve(root, p);
      pv.Some? && pv.value.Node? && Writable(root, p)
  }

  /** Writing `value` at `l` assigns nothing but defaults: the parent node is
      absent from the object (it is presented only through defaults), and
      the lens would go on presenting what it presents now. */
  predicate DefaultOnly(root: Option<Value>, l: Lens, value: Option<Value>) {
    l.Child? && Stored(root, l.parent).None? && Resolve(root, l) == value.OrElse(l.default)
  }

  /** The clone-and-insert walk: set the value into the resolved parent
      (materialising it from its default when absent), then write the cloned
      parent into its own parent, up to the root. Fails with an update error
      when a parent is absent and has no default (or is a leaf that cannot
      hold keys). */
  function Assign(root: Option<Value>, l: Lens, value: Option<Value>): (r: Result<Option<Value>>)
    ensures r.Ok? <==> Writable(root, l)
    ensures r.Err? ==> r.error == Update
    ensures r.Ok? ==> Resolve(r.value, l) == value.OrElse(l.default)
    ensures r.Ok? ==> Writable(r.value, l)
    decreases l
  {
    match l
    case Root(_) => Ok(value)
    case Child(p, k, _) =>
      var pv := Resolve(root, p);
      if pv.None? then Err(Update)
      else
        var cloned := SetValueForKey(pv.value, value, k);
        if cloned.None? then Err(Update)
        else
          GetAfterSet(pv.value, value, k);
          Assign(root, p, cloned)
  }

  /** The new root after setting `value` at `l` over the root snapshot. A
      default is inserted only when the write assigns a nondefault value:
      a write that assigns nothing but defaults under an absent parent keeps
      the root as it was. Fails with an update error exactly when some parent
      is absent with no default, or is a leaf. After a successful write the
      lens presents the written value, or its default after a removal. */
  function Write(root: Option<Value>, l: Lens, value: Option<Value>): (r: Result<Option<Value>>)
    ensures r.Ok? <==> Writable(root, l)
    ensures r.Err? ==> r.error == Update
    ensures r.Ok? ==> Resolve(r.value, l) == value.OrElse(l.default)
    ensures r.Ok? ==> Writable(r.value, l)
  {
    if DefaultOnly(root, l, value) && Writable(root, l) then Ok(root) else Assign(root, l, value)
  }

  /** After the walk stores a node at `l`, the object holds exactly that node there. */
  lemma {:induction false} AssignStores(root: Option<Value>, l: Lens, value: Option<Value>)
    requires value.Some?
    requires Assign(root, l, value).Ok?
    ensures Stored(Assign(root, l, value).value, l) == value
    decreases l
  {
    match l
    case Root(_) =>
    case Child(p, k, _) =>
      var pv := Resolve(root, p).value;
      var cloned := SetValueForKey(pv, value, k);
      AssignStores(root, p, cloned);
      GetAfterSet(pv, value, k);
  }

  /** The walk as seen by co-addressed lenses (same key path, any defaults):
      each presents the written value, or its own default after a removal. */
  lemma {:induction false} AssignReadAfterWrite(root: Option<Value>, l: Lens, o: Lens, value: Option<Value>)
    requires Keys(o) == Keys(l)
    requires Assign(root, l, value).Ok?
    ensures Resolve(Assign(root, l, value).value, o) == value.OrElse(o.default)
    decreases l
  {
    match l
    case Root(_) =>
    case Child(p, k, _) =>
      var pv := Resolve(root, p);
      var cloned := SetValueForKey(pv.value, value, k);
      assert o.Child? && o.key == k by {
        assert Depth(o) == Depth(l) > 0;
        assert Keys(o)[|Keys(o)| - 1] == Keys(l)[|Keys(l)| - 1];
      }
      assert Keys(o.parent) == Keys(o)[..|Keys(o)| - 1] == Keys(l)[..|Keys(l)| - 1] == Keys(p);
      AssignReadAfterWrite(root, p, o.parent, cloned);
      GetAfterSet(pv.value, value, k);
  }

  /** Co-addressed lenses observe a successful write that assigns a
      nondefault value: each presents the written value, or its own default
      after a removal. A write that assigns only defaults inserts nothing, so
      they present what they presented before. */
  lemma CoAddressedReadAfterWrite(root: Option<Value>, l: Lens, o: Lens, value: Option<Value>)
    requires Keys(o) == Keys(l)
    requires Write(root, l, value).Ok?
    ensures !DefaultOnly(root, l, value) ==> Resolve(Write(root, l, value).value, o) == value.OrElse(o.default)
    ensures DefaultOnly(root, l, value) ==> Resolve(Write(root, l, value).value, o) == Resolve(root, o)
  {
    if !DefaultOnly(root, l, value) {
      AssignReadAfterWrite(root, l, o, value);
    }
  }

  /** A successful walk passes through each ancestor: the new root is what
      walking from that ancestor with some cloned node produces. */
  lemma {:induction false} AssignThroughAncestor(root: Option<Value>, a: Lens, l: Lens, value: Option<Value>)
    requires AncestorOrSelf(a, l)
    requires Assign(root, l, value).Ok?
    ensures exists w: Option<Value> :: Assign(root, a, w) == Assign(root, l, value)
    decreases l
  {
    if a == l {
      assert Assign(root, a, value) == Assign(root, l, value);
    } else {
      var cloned := SetValueForKey(Resolve(root, l.parent).value, value, l.key);
      assert Assign(root, l, value) == Assign(root, l.parent, cloned);
      AssignThroughAncestor(root, a, l.parent, cloned);
    }
  }

  /** Frame: a write below `Child(a, k1, _)` leaves every lens below a
      sibling `Child(a, k2, _)` of the same ancestor lens `a` presenting what
      it presented before. */
  lemma SiblingsUnchanged(root: Option<Value>, a: Lens, l: Lens, o: Lens,
                          k1: string, d1: Option<Value>, k2: string, d2: Option<Value>,
                          value: Option<Value>)
    requires AncestorOrSelf(Child(a, k1, d1), l)
    requires AncestorOrSelf(Child(a, k2, d2), o)
    requires k1 != k2
    requires Write(root, l, value).Ok?
    ensures Resolve(Write(root, l, value).value, o) == Resolve(root, o)
  {
    if !DefaultOnly(root, l, value) {
      var r := Assign(root, l, value).value;
      AssignThroughAncestor(root, Child(a, k1, d1), l, value);
      var w :| Assign(root, Child(a, k1, d1), w) == Ok(r);
      var pa := Resolve(root, a).value;
      var cloned := SetValueForKey(pa, w, k1);
      assert Assign(root, a, cloned) == Ok(r);
      assert Resolve(r, a) == cloned;
      SetFrame(pa, w, k1, k2);
      assert Resolve(r, Child(a, k2, d2)) == Resolve(root, Child(a, k2, d2));
      ResolveThroughAncestor(r, root, Child(a, k2, d2), o);
    }
  }

  /** A lens inserts its default into the object only if one of its
      properties is assigned a nondefault value. If the node at
      `Child(q, k, Some(dv))` is absent, a write below it stores a node there
      exactly when it changes what the written lens presents, and the node
      stored is a copy of the default with the written key set. */
  lemma DefaultMaterialised(root: Option<Value>, q: Lens, k: string, dv: Value,
                            k2: string, d2: Option<Value>, value: Option<Value>)
    requires ValueForKey(Resolve(root, q), k) == None
    requires Write(root, Child(Child(q, k, Some(dv)), k2, d2), value).Ok?
    ensures
      var l := Child(Child(q, k, Some(dv)), k2, d2);
      var stored := Stored(Write(root, l, value).value, l.parent);
      && (stored.Some? <==> Resolve(root, l) != value.OrElse(d2))
      && (stored.Some? ==> stored == SetValueForKey(dv, value, k2))
  {
    var qk := Child(q, k, Some(dv));
    var l := Child(qk, k2, d2);
    assert Stored(root, qk) == None;
    if !DefaultOnly(root, l, value) {
      AssignStores(root, qk, SetValueForKey(dv, value, k2));
    }
  }

  /** A write below an absent parent with no default fails with an update error. */
  lemma MissingParentFails(root: Option<Value>, p: Lens, k: string, d: Option<Value>, value: Option<Value>)
    requires Resolve(root, p) == None
    ensures Write(root, Child(p, k, d), value) == Err(Update)
  {
  }

  /** Walking with the same value again over the walk's result changes nothing. */
  lemma {:induction false} AssignIdempotent(root: Option<Value>, l: Lens, value: Option<Value>)
    requires Assign(root, l, value).Ok?
    ensures Assign(Assign(root, l, value).value, l, value) == Assign(root, l, value)
    decreases l
  {
    match l
    case Root(_) =>
    case Child(p, k, _) =>
      var r := Assign(root, l, value).value;
      var pv := Resolve(root, p).value;
      var cloned := SetValueForKey(pv, value, k);
      assert Resolve(r, p) == cloned;
      SetIdempotent(pv, value, k);
      AssignIdempotent(root, p, cloned);
  }

  /** Writing the same value again over the result of a write changes nothing. */
  lemma WriteIdempotent(root: Option<Value>, l: Lens, value: Option<Value>)
    requires Write(root, l, value).Ok?
    ensures Write(Write(root, l, value).value, l, value) == Write(root, l, value)
  {
    if !DefaultOnly(root, l, value) && l.Child? {
      var pv := Resolve(root, l.parent).value;
      var cloned := SetValueForKey(pv, value, l.key);
      AssignStores(root, l.parent, cloned);
      AssignIdempotent(root, l, value);
    } else if l.Root? {
      AssignIdempotent(root, l, value);
    }
  }
}

=== FILE: mutable_lenses.dfy ===
/**
 Lenses bound to a store. Reading loads the root and resolves the path,
 presenting `nil` (or the defaults) when the store cannot be read. Writing
 loads the root once, computes the new root with copy-on-write cloning, and
 persists it with a single save; only a successful save notifies anyone, and
 a failed update leaves the store exactly as it was. The store is a state
 threaded through the operations, so each update is one atomic step.
 */
module MutableLenses {
  import opened Outcomes
  import opened LensValue
  import opened ValueStores
  import opened Lenses
  import opened Notifications

  /** The store after a write operation, its `BOOL`/error result, and the key
      paths whose lenses emit because of it. */
  datatype Committed = Committed(store: Store, outcome: Outcome, notified: set<seq<string>>)

  /** An update block: receives the current value, answers the replacement or an error. */
  type UpdateBlock = Option<Value> -> Result<Option<Value>>

  // ---------------------------------------------------------------------------
  // Reading

  /** The lens's `value` property: resolved lazily from the stored root. A
      store that cannot be read presents as an empty one. Reading takes the
      store as a value and gives none back: it never changes the store. */
  function CurrentValue(s: Store, c: Codec, l: Lens): (v: Option<Value>)
    ensures LoadValue(s, c).Err? ==> v == Resolve(None, l)
    ensures LoadValue(s, c).Ok? ==> v == Resolve(LoadValue(s, c).value, l)
  {
    Resolve(LoadedOrNil(LoadValue(s, c)), l)
  }

  // ---------------------------------------------------------------------------
  // Writing

  /** Writes `value` at `l` over the loaded root and saves the new root. */
  function Commit(s: Store, c: Codec, l: Lens, root: Option<Value>, value: Option<Value>): (r: Committed)
    ensures r.outcome.Fail? ==> r.store == s && r.notified == {}
    ensures r.outcome.Pass? ==> Writable(root, l)
    ensures r.outcome.Pass? ==> r.store == SaveValue(s, c, Write(root, l, value).value).state
    ensures r.outcome.Pass? ==> forall q: seq<string> :: q in r.notified <==> q <= Keys(l)
  {
    match Write(root, l, value)
    case Err(e) => Committed(s, Fail(e), {})
    case Ok(newRoot) =>
      var w := SaveValue(s, c, newRoot);
      if w.outcome.Pass? then Committed(w.state, Pass, NotifiedPaths(l))
      else Committed(s, w.outcome, {})
  }

  /** `updateValue:error:`. Fails when the root cannot be loaded, when a
      parent is absent and has no default, or when the store cannot persist
      the new root; a failure changes nothing and notifies no one. */
  function UpdateValue(s: Store, c: Codec, l: Lens, value: Option<Value>): (r: Committed)
    ensures r.outcome.Fail? ==> r.store == s && r.notified == {}
    ensures r.outcome.Pass? ==> LoadValue(s, c).Ok? && Writable(LoadValue(s, c).value, l)
    ensures r.outcome.Pass? ==> forall q: seq<string> :: q in r.notified <==> q <= Keys(l)
    ensures s.Ephemeral? ==> (r.outcome.Pass? <==> Writable(s.held, l))
    ensures LoadValue(s, c).Ok? && !Writable(LoadValue(s, c).value, l) ==> r.outcome == Fail(Update)
    ensures LoadValue(s, c).Ok? && Writable(LoadValue(s, c).value, l) ==>
      (r.outcome.Pass? <==> SaveValue(s, c, Write(LoadValue(s, c).value, l, value).value).outcome.Pass?)
    ensures r.outcome.Pass? ==> r.store == SaveValue(s, c, Write(LoadValue(s, c).value, l, value).value).state
  {
    match LoadValue(s, c)
    case Err(e) => Committed(s, Fail(e), {})
    case Ok(root) => Commit(s, c, l, root, value)
  }

  /** `updateValueWithBlock:error:`: the block sees the lens's current value,
      read from the same snapshot the write starts from, and its result is
      written as `updateValue:error:` would. An error from the block is
      passed through and nothing is written. */
  function UpdateValueWithBlock(s: Store, c: Codec, l: Lens, block: UpdateBlock): (r: Committed)
    ensures r.outcome.Fail? ==> r.store == s && r.notified == {}
    ensures r.outcome.Pass? ==> LoadValue(s, c).Ok? && block(Resolve(LoadValue(s, c).value, l)).Ok?
  {
    match LoadValue(s, c)
    case Err(e) => Committed(s, Fail(e), {})
    case Ok(root) =>
      match block(Resolve(root, l))
      case Err(e) => Committed(s, Fail(e), {})
      case Ok(value) => Commit(s, c, l, root, value)
  }

  /** `removeValue:`: an update to `nil`. A value that is already absent
      (the lens presents its default, or `nil`, under a path that cannot be
      written) is removed trivially: the call succeeds and stores nothing.
      On the in-memory store, a successful removal leaves the lens presenting
      its default, or `nil`, and removing a value the lens does not present
      always succeeds. */
  function RemoveValue(s: Store, c: Codec, l: Lens): (r: Committed)
    ensures r.outcome.Fail? ==> r.store == s && r.notified == {}
    ensures r.outcome.Pass? ==> forall q: seq<string> :: q in r.notified <==> q <= Keys(l)
    ensures s.Ephemeral? && r.outcome.Pass? ==> CurrentValue(r.store, c, l) == l.default
    ensures s.Ephemeral? && CurrentValue(s, c, l) == l.default ==> r.outcome.Pass?
  {
    match LoadValue(s, c)
    case Err(e) => Committed(s, Fail(e), {})
    case Ok(root) =>
      if AlreadyRemoved(root, l) then Committed(s, Pass, NotifiedPaths(l))
      else
        var r := Commit(s, c, l, root, None);
        if s.Ephemeral? && r.outcome.Pass? then
          assert LoadValue(r.store, c) == Ok(Write(root, l, None).value);
          r
        else
          r
  }

  /** Nothing to remove: the lens presents its default, or `nil`, and the
      path cannot be written, so no node at the path exists to remove. */
  predicate AlreadyRemoved(root: Option<Value>, l: Lens) {
    !Writable(root, l) && Resolve(root, l) == l.default
  }

  /** `resetValue:`: reloads from the store and reports whether that worked.
      Lenses keep no cache, so nothing else changes. */
  function ResetValue(s: Store, c: Codec, l: Lens): (r: Outcome)
    ensures r.Pass? <==> LoadValue(s, c).Ok?
    ensures r.Fail? ==> r.error == LoadValue(s, c).error
  {
    match LoadValue(s, c)
    case Err(e) => Fail(e)
    case Ok(_) => Pass
  }

  /** The emissions after a write: every observer on a notified path emits
      its value over the store the write left behind. */
  method EmitAfter(observers: seq<Lens>, committed: Committed, c: Codec) returns (emitted: seq<Emission>)
    ensures committed.notified == {} ==> emitted == []
    ensures forall e :: e in emitted ==>
      e.lens in observers && Keys(e.lens) in committed.notified && e.value == CurrentValue(committed.store, c, e.lens)
    ensures forall o :: o in observers && Keys(o) in committed.notified ==>
      Emission(o, CurrentValue(committed.store, c, o)) in emitted
  {
    var root := LoadedOrNil(LoadValue(committed.store, c));
    emitted := Publish(observers, committed.notified, root);
  }

  // ---------------------------------------------------------------------------
  // Factories

  /** A store and the root lens over it. */
  datatype Bound = Bound(store: Store, lens: Lens)

  /** `lensWithValue:`: a root lens over an in-memory store holding `value`. */
  function LensWithValue(value: Option<Value>): (r: Bound)
    ensures r.lens.Root?
    ensures forall c: Codec {:trigger CurrentValue(r.store, c, r.lens)} :: CurrentValue(r.store, c, r.lens) == value
    ensures r.store.Ephemeral?
  {
    Bound(EphemeralStore(value), Root(None))
  }

  /** `lensWithDefaultValue:store:error:`: performs the initial load and
      answers its error instead of a lens when it fails. The default stands
      in while the store holds nothing. */
  function LensWithDefaultValue(default: Option<Value>, s: Store, c: Codec): (r: Result<Lens>)
    ensures r.Ok? <==> LoadValue(s, c).Ok?
    ensures r.Err? ==> r.error == LoadValue(s, c).error
    ensures r.Ok? ==> r.value.Root? && CurrentValue(s, c, r.value) == LoadValue(s, c).value.OrElse(default)
  {
    var _ :- LoadValue(s, c);
    Ok(Root(default))
  }

  // ---------------------------------------------------------------------------
  // Properties of updates

  /** Read-after-write: after a successful update that assigns a nondefault
      value, every co-addressed lens presents the new value (or its own
      default after a removal). An update that assigns only defaults inserts
      nothing, and every co-addressed lens presents what it presented. */
  lemma UpdateThenRead(s: Store, c: Codec, l: Lens, o: Lens, value: Option<Value>)
    requires Faithful(s, c)
    requires Keys(o) == Keys(l)
    requires UpdateValue(s, c, l, value).outcome.Pass?
    ensures !DefaultOnly(LoadedOrNil(LoadValue(s, c)), l, value) ==>
      CurrentValue(UpdateValue(s, c, l, value).store, c, o) == value.OrElse(o.default)
    ensures DefaultOnly(LoadedOrNil(LoadValue(s, c)), l, value) ==>
      CurrentValue(UpdateValue(s, c, l, value).store, c, o) == CurrentValue(s, c, o)
  {
    var root := LoadValue(s, c).value;
    var newRoot := Write(root, l, value).value;
    SaveThenLoad(s, c, newRoot);
    CoAddressedReadAfterWrite(root, l, o, value);
  }

  /** Frame: an update below `Child(a, k1, _)` leaves every lens below a
      sibling `Child(a, k2, _)` presenting what it presented before — the
      lenses that are not notified see no change. */
  lemma SiblingsKeepValue(s: Store, c: Codec, a: Lens, l: Lens, o: Lens,
                          k1: string, d1: Option<Value>, k2: string, d2: Option<Value>,
                          value: Option<Value>)
    requires Faithful(s, c)
    requires AncestorOrSelf(Child(a, k1, d1), l)
    requires AncestorOrSelf(Child(a, k2, d2), o)
    requires k1 != k2
    requires UpdateValue(s, c, l, value).outcome.Pass?
    ensures CurrentValue(UpdateValue(s, c, l, value).store, c, o) == CurrentValue(s, c, o)
    ensures Keys(o) !in UpdateValue(s, c, l, value).notified
  {
    var root := LoadValue(s, c).value;
    var newRoot := Write(root, l, value).value;
    SaveThenLoad(s, c, newRoot);
    SiblingsUnchanged(root, a, l, o, k1, d1, k2, d2, value);
    AncestorsNotified(Child(a, k1, d1), l);
    AncestorsNotified(Child(a, k2, d2), o);
    var i := |Keys(a)|;
    assert Keys(Child(a, k1, d1))[i] == k1 && Keys(Child(a, k2, d2))[i] == k2;
    assert Keys(l)[i] == k1 && Keys(o)[i] == k2;
    SiblingsQuiet(l, o, i);
  }

  /** A failed update leaves every lens presenting what it presented before. */
  lemma FailedUpdateChangesNothing(s: Store, c: Codec, l: Lens, o: Lens, value: Option<Value>)
    requires UpdateValue(s, c, l, value).outcome.Fail?
    ensures CurrentValue(UpdateValue(s, c, l, value).store, c, o) == CurrentValue(s, c, o)
    ensures UpdateValue(s, c, l, value).notified == {}
  {
  }

  /** A backend whose byte writes fail makes every update fail, and a value
      persisted earlier stays resolvable unchanged. */
  lemma FailingBackendKeepsValue(b: Backend, c: Codec, l: Lens, o: Lens, value: Option<Value>)
    requires b.faults.saveFails && b.faults.removeFails
    ensures UpdateValue(Persistent(b), c, l, value).outcome.Fail?
    ensures CurrentValue(UpdateValue(Persistent(b), c, l, value).store, c, o) == CurrentValue(Persistent(b), c, o)
  {
  }

  /** After a successful removal the lens presents its default, or `nil`. */
  lemma RemoveYieldsDefault(s: Store, c: Codec, l: Lens)
    requires Faithful(s, c)
    requires RemoveValue(s, c, l).outcome.Pass?
    ensures CurrentValue(RemoveValue(s, c, l).store, c, l) == l.default
  {
    if !AlreadyRemoved(LoadValue(s, c).value, l) {
      UpdateThenRead(s, c, l, l, None);
    }
  }

  /** Removing a value the lens does not present succeeds on a store whose
      primitives never fail, whether or not the path can be written. */
  lemma RemoveAbsentSucceeds(s: Store, c: Codec, l: Lens)
    requires Reliable(s, c)
    requires LoadValue(s, c).Ok?
    requires CurrentValue(s, c, l) == l.default
    ensures RemoveValue(s, c, l).outcome.Pass?
  {
    var root := LoadValue(s, c).value;
    if !AlreadyRemoved(root, l) {
      var newRoot := Write(root, l, None).value;
      assert SaveValue(s, c, newRoot).outcome.Pass? by {
        if s.Persistent? && newRoot.Some? {
          assert c.encode(newRoot.value).Some?;
        }
      }
    }
  }

  /** Repeating a successful update changes nothing more: whether or not the
      second call succeeds, it leaves the store as the first one left it, and
      on a store whose primitives never fail it succeeds again. */
  lemma UpdateIdempotent(s: Store, c: Codec, l: Lens, value: Option<Value>)
    requires Faithful(s, c)
    requires UpdateValue(s, c, l, value).outcome.Pass?
    ensures UpdateValue(UpdateValue(s, c, l, value).store, c, l, value).store == UpdateValue(s, c, l, value).store
    ensures Reliable(s, c) ==> UpdateValue(UpdateValue(s, c, l, value).store, c, l, value).outcome.Pass?
  {
    var root := LoadValue(s, c).value;
    var newRoot := Write(root, l, value).value;
    SaveThenLoad(s, c, newRoot);
    WriteIdempotent(root, l, value);
    SaveTwice(s, c, newRoot);
  }

  /** Saving the same root twice succeeds again and stores the same state. */
  lemma SaveTwice(s: Store, c: Codec, root: Option<Value>)
    requires SaveValue(s, c, root).outcome.Pass?
    ensures SaveValue(SaveValue(s, c, root).state, c, root) == SaveValue(s, c, root)
  {
  }

  /** After a successful removal, a second removal leaves the store as the
      first left it, still presenting the default or `nil`; on a store whose
      primitives never fail it succeeds too. */
  lemma RemoveTwice(s: Store, c: Codec, l: Lens)
    requires Faithful(s, c)
    requires RemoveValue(s, c, l).outcome.Pass?
    ensures RemoveValue(RemoveValue(s, c, l).store, c, l).store == RemoveValue(s, c, l).store
    ensures CurrentValue(RemoveValue(RemoveValue(s, c, l).store, c, l).store, c, l) == l.default
    ensures Reliable(s, c) ==> RemoveValue(RemoveValue(s, c, l).store, c, l).outcome.Pass?
  {
    var root := LoadValue(s, c).value;
    if !AlreadyRemoved(root, l) {
      var newRoot := Write(root, l, None).value;
      SaveThenLoad(s, c, newRoot);
      assert !AlreadyRemoved(newRoot, l);
      UpdateIdempotent(s, c, l, None);
      RemoveYieldsDefault(s, c, l);
    }
  }

  /** An update block that answers `v` for the current value writes `v`
      exactly as `updateValue:error:` does. */
  lemma BlockWritesLikeUpdate(s: Store, c: Codec, l: Lens, block: UpdateBlock, value: Option<Value>)
    requires LoadValue(s, c).Ok?
    requires block(Resolve(LoadValue(s, c).value, l)) == Ok(value)
    ensures UpdateValueWithBlock(s, c, l, block) == UpdateValue(s, c, l, value)
  {
  }

  /** An error from the update block is passed through verbatim. */
  lemma BlockErrorPassesThrough(s: Store, c: Codec, l: Lens, block: UpdateBlock, e: ErrorCode)
    requires LoadValue(s, c).Ok?
    requires block(Resolve(LoadValue(s, c).value, l)) == Err(e)
    ensures UpdateValueWithBlock(s, c, l, block) == Committed(s, Fail(e), {})
  {
  }

  // ---------------------------------------------------------------------------
  // A counter incremented through update blocks

  /** Increments a counter; an absent counter counts from zero. */
  function Increment(current: Option<Value>): (r: Result<Option<Value>>)
    ensures current.Some? && current.value.Num? ==> r == Ok(Some(Num(current.value.n + 1)))
    ensures current.Some? && !current.value.Num? ==> r == Err(Update)
  {
    match current
    case None => Ok(Some(Num(1)))
    case Some(Num(n)) => Ok(Some(Num(n + 1)))
    case Some(_) => Err(Update)
  }

  /** `n` increment blocks applied one after another. */
  function IncrementTimes(s: Store, c: Codec, l: Lens, n: nat): (r: Store)
    ensures r.Ephemeral? == s.Ephemeral?
    decreases n
  {
    if n == 0 then s else IncrementTimes(UpdateValueWithBlock(s, c, l, Increment).store, c, l, n - 1)
  }

  /** A store that always loads what was saved and never fails to save:
      every value archives and no byte primitive fails. */
  ghost predicate Reliable(s: Store, c: Codec) {
    s.Ephemeral? || (Lossless(c) && Archives(c) && s.backend.faults == Faults(false, false, false))
  }

  /** Applying `n` increment blocks in sequence to a writable counter raises
      it by exactly `n`. */
  lemma {:induction false} IncrementsAddUp(s: Store, c: Codec, l: Lens, start: int, n: nat)
    requires Reliable(s, c)
    requires LoadValue(s, c).Ok? && Writable(LoadValue(s, c).value, l)
    requires CurrentValue(s, c, l) == Some(Num(start))
    ensures CurrentValue(IncrementTimes(s, c, l, n), c, l) == Some(Num(start + n))
    decreases n
  {
    if n > 0 {
      var root := LoadValue(s, c).value;
      var next := UpdateValueWithBlock(s, c, l, Increment);
      var value := Some(Num(start + 1));
      assert Increment(Resolve(root, l)) == Ok(value);
      var newRoot := Write(root, l, value).value;
      assert next.store == SaveValue(s, c, newRoot).state;
      SaveThenLoad(s, c, newRoot);
      assert LoadValue(next.store, c) == Ok(newRoot);
      IncrementsAddUp(next.store, c, l, start + 1, n - 1);
    }
  }
}

=== FILE: notifications.dfy ===
/**
 Which lenses hear about an update. Updates propagate from a child to its
 parents: an update at key path P notifies the lenses whose key path is a
 prefix of P (P itself, its parent, ..., the root), and no lens on a sibling
 branch. Lenses are told apart by key path alone, so co-addressed lenses hear
 each other's updates.
 */
module Notifications {
  import opened Outcomes
  import opened LensValue
  import opened Lenses

  /** An update through `updated` makes `observer` emit. */
  predicate Notifies(updated: Lens, observer: Lens) {
    Keys(observer) <= Keys(updated)
  }

  /** The key paths an update through `l` notifies, collected from `l` up to the root. */
  function NotifiedPaths(l: Lens): (r: set<seq<string>>)
    ensures forall q: seq<string> :: q in r <==> q <= Keys(l)
  {
    match l
    case Root(_) => {[]}
    case Child(p, k, _) =>
      var here := Keys(p) + [k];
      var r := NotifiedPaths(p) + {here};
      assert forall q: seq<string> :: q in r <==> q <= here by {
        forall q: seq<string>
          ensures q in r <==> q <= here
        {
          if q <= here && q != here {
            assert |q| <= |Keys(p)|;
            assert q == here[..|q|] == Keys(p)[..|q|];
          }
        }
      }
      r
  }

  /** An update notifies the lens it was made through and each of its ancestors. */
  lemma {:induction false} AncestorsNotified(a: Lens, l: Lens)
    requires AncestorOrSelf(a, l)
    ensures Notifies(l, a)
    decreases l
  {
    if a != l {
      AncestorsNotified(a, l.parent);
      assert Keys(l) == Keys(l.parent) + [l.key];
    }
  }

  /** Lenses whose key paths part at some level never notify each other. */
  lemma SiblingsQuiet(l: Lens, o: Lens, i: nat)
    requires i < |Keys(l)| && i < |Keys(o)|
    requires Keys(l)[i] != Keys(o)[i]
    ensures !Notifies(l, o) && !Notifies(o, l)
  {
  }

  /** What a lens emits when it is notified: its value after the update. */
  datatype Emission = Emission(lens: Lens, value: Option<Value>)

  /** The fan-out after a successful update: each notified observer emits
      what it presents over the new root, and no other observer emits. */
  method Publish(observers: seq<Lens>, notified: set<seq<string>>, root: Option<Value>)
    returns (emitted: seq<Emission>)
    ensures |emitted| <= |observers|
    ensures notified == {} ==> emitted == []
    ensures forall e :: e in emitted ==>
      e.lens in observers && Keys(e.lens) in notified && e.value == Resolve(root, e.lens)
    ensures forall o :: o in observers && Keys(o) in notified ==> Emission(o, Resolve(root, o)) in emitted
  {
    emitted := [];
    var i := 0;
    while i < |observers|
      invariant i <= |observers|
      invariant |emitted| <= i
      invariant notified == {} ==> emitted == []
      invariant forall e :: e in emitted ==>
        e.lens in observers[..i] && Keys(e.lens) in notified && e.value == Resolve(root, e.lens)
      invariant forall o :: o in observers[..i] && Keys(o) in notified ==> Emission(o, Resolve(root, o)) in emitted
    {
      var o := observers[i];
      if Keys(o) in notified {
        emitted := emitted + [Emission(o, Resolve(root, o))];
      }
      assert observers[..i + 1] == observers[..i] + [o];
      i := i + 1;
    }
    assert observers[..i] == observers;
  }
}

=== FILE: outcomes.dfy ===
/**
 The error plumbing of the lens library: an optional value (Objective-C's
 nullable object), the three error codes of the library's error domain, and the
 two shapes an operation can return — a value or an error (`Result`), and the
 YES/NO-plus-error shape of the write operations (`Outcome`).
 */
module Outcomes {

  /** A nullable object: `None` is Objective-C's `nil`. */
  datatype Option<+T> = None | Some(value: T) {

    /** `self ?: fallback`: this value when present, otherwise the fallback. */
    function OrElse(fallback: Option<T>): (r: Option<T>)
      ensures Some? ==> r == this
      ensures None? ==> r == fallback
    {
      if Some? then this else fallback
    }
  }

  /** The codes of the library's error domain. */
  datatype ErrorCode =
    | System    // an I/O problem in a store backend
    | Update    // a missing parent with no default, or a failed update block
    | Internal  // loaded data that does not decode to a lens value

  /** The numeric code the error domain assigns to each kind. */
  function Code(e: ErrorCode): (r: int)
    ensures e == System ==> r == 10
    ensures e == Update ==> r == 11
    ensures e == Internal ==> r == 12
  {
    match e
    case System => 10
    case Update => 11
    case Internal => 12
  }

  /** Distinct kinds carry distinct codes, so a caller that only sees the
      numeric code of an error can tell which kind of failure it was. Code's
      contract gives each code; this states the consequence callers use. */
  lemma CodesAreDistinct(e: ErrorCode, f: ErrorCode)
    ensures Code(e) == Code(f) <==> e == f
  {
  }

  /** A value, or the error that prevented computing it. */
  datatype Result<+T> = Ok(value: T) | Err(error: ErrorCode) {

    predicate IsFailure() {
      Err?
    }

    function PropagateFailure<U>(): (r: Result<U>)
      requires Err?
    {
      Err(error)
    }

    function Extract(): (v: T)
      requires Ok?
    {
      value
    }
  }

  /** The `BOOL` result and `NSError **` out-parameter of a write operation. */
  datatype Outcome = Pass | Fail(error: ErrorCode)
}

=== FILE: scenarios.dfy ===
/**
 Concrete scenarios of the model: a profile age written through a defaulted path
 into an empty store, the paths an update notifies, and a person's settings
 (name, age, privacy settings with an email) edited through a lens.
 */
module Scenarios {
  import opened Outcomes
  import opened LensValue
  import opened ValueStores
  import opened Lenses
  import opened Notifications
  import opened MutableLenses

  const EmptyNode: Value := Node(map[])

  /** An empty store; a lens at `profile.age` with default 0 reads 0, a write
      of 30 succeeds and reads back, and the `profile` lens then presents a
      structure with `age = 30`. */
  lemma ProfileAgeScenario(c: Codec)
    ensures
      var root := Root(Some(EmptyNode));
      var profile := LensForKeyWithDefault(root, "profile", Some(EmptyNode));
      var age := LensForKeyWithDefault(profile, "age", Some(Num(0)));
      var s := EphemeralStore(None);
      var u := UpdateValue(s, c, age, Some(Num(30)));
      && CurrentValue(s, c, age) == Some(Num(0))
      && u.outcome == Pass
      && CurrentValue(u.store, c, age) == Some(Num(30))
      && CurrentValue(u.store, c, profile) == Some(Node(map["age" := Num(30)]))
  {
    var root := Root(Some(EmptyNode));
    var profile := LensForKeyWithDefault(root, "profile", Some(EmptyNode));
    var age := LensForKeyWithDefault(profile, "age", Some(Num(0)));
    var profileNode := Node(map["age" := Num(30)]);
    assert SetValueForKey(EmptyNode, Some(Num(30)), "age") == Some(profileNode);
    assert SetValueForKey(EmptyNode, Some(profileNode), "profile") == Some(Node(map["profile" := profileNode]));
  }

  /** The same write with no default on `profile` fails with an update error
      and leaves the store empty. */
  lemma MissingDefaultScenario(c: Codec)
    ensures
      var profile := LensForKey(Root(None), "profile");
      var age := LensForKeyWithDefault(profile, "age", Some(Num(0)));
      var u := UpdateValue(EphemeralStore(None), c, age, Some(Num(30)));
      u.outcome == Fail(Update) && u.store == EphemeralStore(None) && u.notified == {}
  {
  }

  /** An update at `a.b.c` notifies `a.b.c`, `a.b`, `a` and the root, and
      neither the sibling `a.d` nor the child `a.b.c.x`. */
  lemma AncestorPropagationScenario()
    ensures
      var abc := LensForKey(LensForKey(LensForKey(Root(None), "a"), "b"), "c");
      var notified := NotifiedPaths(abc);
      && ["a", "b", "c"] in notified && ["a", "b"] in notified && ["a"] in notified && [] in notified
      && ["a", "d"] !in notified
      && ["a", "b", "c", "x"] !in notified
  {
    var abc := LensForKey(LensForKey(LensForKey(Root(None), "a"), "b"), "c");
    assert Keys(abc) == ["a", "b", "c"];
    assert ["a", "b"] <= Keys(abc);
    assert ["a"] <= Keys(abc);
    assert ["a", "d"][1] != Keys(abc)[1];
  }

  /** A person's settings: name, age, and privacy settings holding an email. */
  function Person(name: string, age: int, email: string): (v: Value) {
    Node(map["name" := Text(name), "age" := Num(age),
             "privacySettings" := Node(map["email" := Text(email)])])
  }

  /** Writing the email through `privacySettings.email` changes the email and
      leaves the name and age as they were. */
  lemma PersonEmailScenario(c: Codec)
    ensures
      var person := Root(None);
      var email := LensForKey(LensForKey(person, "privacySettings"), "email");
      var s := EphemeralStore(Some(Person("Pavel", 30, "old@example.com")));
      var u := UpdateValue(s, c, email, Some(Text("new@example.com")));
      && u.outcome == Pass
      && CurrentValue(u.store, c, person) == Some(Person("Pavel", 30, "new@example.com"))
      && CurrentValue(u.store, c, LensForKey(person, "name")) == Some(Text("Pavel"))
      && CurrentValue(u.store, c, LensForKey(person, "age")) == Some(Num(30))
  {
    var before := Person("Pavel", 30, "old@example.com");
    var privacy := Node(map["email" := Text("new@example.com")]);
    assert SetValueForKey(Node(map["email" := Text("old@example.com")]), Some(Text("new@example.com")), "email")
        == Some(privacy) by {
      assert map["email" := Text("old@example.com")]["email" := Text("new@example.com")] == privacy.fields;
    }
    var after := Person("Pavel", 30, "new@example.com");
    assert SetValueForKey(before, Some(privacy), "privacySettings") == Some(after) by {
      assert before.fields["privacySettings" := privacy] == after.fields;
    }
  }

  /** Assigning a lens its own default under an absent defaulted parent
      inserts nothing: the update and the removal both succeed, the store
      keeps its empty root, and a lens on `profile` without a default still
      presents `nil`. */
  lemma DefaultValueScenario(c: Codec)
    ensures
      var profile := LensForKeyWithDefault(Root(None), "profile", Some(EmptyNode));
      var age := LensForKeyWithDefault(profile, "age", Some(Num(0)));
      var s := EphemeralStore(Some(EmptyNode));
      var u := UpdateValue(s, c, age, Some(Num(0)));
      var r := RemoveValue(s, c, age);
      && u.outcome == Pass && u.store == s
      && r.outcome == Pass && r.store == s
      && CurrentValue(u.store, c, LensForKey(Root(None), "profile")) == None
      && CurrentValue(u.store, c, age) == Some(Num(0))
  {
  }

  /** Notification runs only from a child to its ancestors: writing a node
      at `a` that adds the key `b` notifies `a` and the root, but not the lens
      on `a.b`, although that lens goes from `nil` to a value. */
  lemma DescendantNotNotifiedScenario(c: Codec)
    ensures
      var a := LensForKey(Root(None), "a");
      var ab := LensForKey(a, "b");
      var s := EphemeralStore(Some(Node(map["a" := EmptyNode])));
      var u := UpdateValue(s, c, a, Some(Node(map["b" := Num(1)])));
      && u.outcome == Pass
      && CurrentValue(s, c, ab) == None
      && CurrentValue(u.store, c, ab) == Some(Num(1))
      && ["a", "b"] !in u.notified
  {
    var a := LensForKey(Root(None), "a");
    assert Keys(a) == ["a"];
  }

  /** Lenses on the same key path with different defaults present different
      values. An update below one of them can change what a lens built from
      the other presents without notifying it: `x` reads `a.d` through a
      default `{d = 1}` on `a`, and inserting `a = {b = 5}` through `y`
      leaves `x` reading `nil`. */
  lemma SharedPathDefaultsScenario(c: Codec)
    ensures
      var x := LensForKey(LensForKeyWithDefault(Root(None), "a", Some(Node(map["d" := Num(1)]))), "d");
      var y := LensForKey(LensForKeyWithDefault(Root(None), "a", Some(EmptyNode)), "b");
      var s := EphemeralStore(Some(EmptyNode));
      var u := UpdateValue(s, c, y, Some(Num(5)));
      && u.outcome == Pass
      && Keys(x) !in u.notified
      && CurrentValue(s, c, x) == Some(Num(1))
      && CurrentValue(u.store, c, x) == None
  {
    var x := LensForKey(LensForKeyWithDefault(Root(None), "a", Some(Node(map["d" := Num(1)]))), "d");
    var y := LensForKey(LensForKeyWithDefault(Root(None), "a", Some(EmptyNode)), "b");
    assert Keys(x) == ["a", "d"] && Keys(y) == ["a", "b"];
    assert SetValueForKey(EmptyNode, Some(Num(5)), "b") == Some(Node(map["b" := Num(5)]));
    assert SetValueForKey(EmptyNode, Some(Node(map["b" := Num(5)])), "a")
        == Some(Node(map["a" := Node(map["b" := Num(5)])]));
  }

  /** Removing `profile.age` when neither `profile` nor a default for it
      exists succeeds and stores nothing: there is nothing to remove. */
  lemma RemoveAbsentScenario(c: Codec)
    ensures
      var age := LensForKey(LensForKey(Root(None), "profile"), "age");
      var s := EphemeralStore(Some(EmptyNode));
      var r := RemoveValue(s, c, age);
      && CurrentValue(s, c, age) == None
      && r.outcome == Pass && r.store == s
  {
  }
}

=== FILE: value_stores.dfy ===
/**
 Value stores: an all-or-nothing `saveValue:`/`loadValue:` of one root value.
 Two stores are modelled: the in-memory ephemeral store, and the persistent
 base store, which turns values into bytes with a codec and hands them to
 three byte primitives (`saveData:`, `loadData:`, `removeData:`) that a
 backend supplies. The backend here is a byte slot plus a record of which of
 its primitives fail, standing in for the I/O outcome of a real device.
 */
module ValueStores {
  import opened Outcomes
  import opened LensValue

  type Bytes = seq<bv8>

  /** The archiving format: how a value becomes bytes and back. Encoding
      answers `None` for a value that cannot be archived (a lens value that
      is not also persistable); decoding answers `None` when the bytes do not
      unarchive into a lens value. */
  datatype Codec = Codec(encode: Value -> Option<Bytes>, decode: Bytes -> Option<Value>)

  /** Decoding undoes encoding, for every value that can be archived. */
  ghost predicate Lossless(c: Codec) {
    forall v: Value :: c.encode(v).Some? ==> c.decode(c.encode(v).value) == Some(v)
  }

  /** Every value can be archived. */
  ghost predicate Archives(c: Codec) {
    forall v: Value :: c.encode(v).Some?
  }

  /** Which byte primitives of a backend fail with an I/O error. */
  datatype Faults = Faults(saveFails: bool, loadFails: bool, removeFails: bool)

  /** A byte-oriented backend: the bytes currently persisted, if any. */
  datatype Backend = Backend(data: Option<Bytes>, faults: Faults)

  datatype Store =
    | Ephemeral(held: Option<Value>)
    | Persistent(backend: Backend)

  /** The state a write leaves behind and whether it succeeded. */
  datatype Written<S> = Written(state: S, outcome: Outcome)

  // ---------------------------------------------------------------------------
  // The byte primitives of a persistent backend

  /** `saveData:`: replaces the persisted bytes, or fails leaving them as they were. */
  function SaveData(b: Backend, data: Bytes): (r: Written<Backend>)
    ensures r.outcome.Pass? <==> !b.faults.saveFails
    ensures r.outcome.Pass? ==> r.state == b.(data := Some(data))
    ensures r.outcome.Fail? ==> r.state == b && r.outcome.error == System
  {
    if b.faults.saveFails then Written(b, Fail(System)) else Written(b.(data := Some(data)), Pass)
  }

  /** `loadData:`: the persisted bytes (`None` when nothing is persisted), or an I/O error. */
  function LoadData(b: Backend): (r: Result<Option<Bytes>>)
    ensures r.Ok? <==> !b.faults.loadFails
    ensures r.Ok? ==> r.value == b.data
    ensures r.Err? ==> r.error == System
  {
    if b.faults.loadFails then Err(System) else Ok(b.data)
  }

  /** `removeData:`: forgets the persisted bytes, or fails leaving them as they were. */
  function RemoveData(b: Backend): (r: Written<Backend>)
    ensures r.outcome.Pass? <==> !b.faults.removeFails
    ensures r.outcome.Pass? ==> r.state == b.(data := None)
    ensures r.outcome.Fail? ==> r.state == b && r.outcome.error == System
  {
    if b.faults.removeFails then Written(b, Fail(System)) else Written(b.(data := None), Pass)
  }

  // ---------------------------------------------------------------------------
  // The store protocol

  /** `initWithValue:` of the in-memory store; the value may be `nil`. */
  function EphemeralStore(value: Option<Value>): (s: Store)
    ensures forall c: Codec {:trigger LoadValue(s, c)} :: LoadValue(s, c) == Ok(value)
  {
    Ephemeral(value)
  }

  /** `saveValue:error:`. Saving `nil` clears the storage. A value the codec
      cannot archive is refused with an internal error. A failed save leaves
      the store exactly as it was. */
  function SaveValue(s: Store, c: Codec, value: Option<Value>): (r: Written<Store>)
    ensures r.outcome.Fail? ==> r.state == s
    ensures s.Ephemeral? ==> r.outcome.Pass?
    ensures r.state.Ephemeral? == s.Ephemeral?
    ensures s.Persistent? ==> r.state.backend.faults == s.backend.faults
  {
    match s
    case Ephemeral(_) => Written(Ephemeral(value), Pass)
    case Persistent(b) =>
      if value.None? then
        var w := RemoveData(b);
        Written(Persistent(w.state), w.outcome)
      else
        match c.encode(value.value)
        case None => Written(s, Fail(Internal))
        case Some(bytes) =>
          var w := SaveData(b, bytes);
          Written(Persistent(w.state), w.outcome)
  }

  /** `loadValue:`. Absent bytes mean nothing was saved yet and load as `nil`;
      bytes that do not decode to a lens value are an internal error. */
  function LoadValue(s: Store, c: Codec): (r: Result<Option<Value>>)
    ensures s.Ephemeral? ==> r == Ok(s.held)
    ensures r.Err? ==> s.Persistent?
  {
    match s
    case Ephemeral(held) => Ok(held)
    case Persistent(b) =>
      var data :- LoadData(b);
      if data.None? then Ok(None)
      else
        var v := c.decode(data.value);
        if v.None? then Err(Internal) else Ok(v)
  }

  /** The nullable result of `loadValue:` with its error out-parameter
      ignored: `nil` both for an empty store and for a failed load. */
  function LoadedOrNil(r: Result<Option<Value>>): (v: Option<Value>)
    ensures r.Err? ==> v.None?
    ensures r.Ok? ==> v == r.value
  {
    if r.Ok? then r.value else None
  }

  /** A store whose loads return what its saves stored: the in-memory store,
      or a persistent store with a lossless codec and a readable backend. */
  ghost predicate Faithful(s: Store, c: Codec) {
    s.Ephemeral? || (Lossless(c) && !s.backend.faults.loadFails)
  }

  // ---------------------------------------------------------------------------
  // Properties of the store protocol

  /** A successful save followed by a load returns the saved value, `nil` included. */
  lemma SaveThenLoad(s: Store, c: Codec, value: Option<Value>)
    requires Faithful(s, c)
    requires SaveValue(s, c, value).outcome.Pass?
    ensures LoadValue(SaveValue(s, c, value).state, c) == Ok(value)
  {
  }

  /** Saving `nil` clears the storage: a later load answers `nil` with no
      error, whatever the codec. */
  lemma SaveNilClears(s: Store, c: Codec)
    requires s.Persistent? ==> !s.backend.faults.loadFails
    requires SaveValue(s, c, None).outcome.Pass?
    ensures LoadValue(SaveValue(s, c, None).state, c) == Ok(None)
  {
  }

  /** A failed save leaves the previously stored value loadable unchanged. */
  lemma FailedSaveKeepsValue(s: Store, c: Codec, value: Option<Value>)
    requires SaveValue(s, c, value).outcome.Fail?
    ensures LoadValue(SaveValue(s, c, value).state, c) == LoadValue(s, c)
  {
  }

  /** The persistent store routes an archivable value through the codec to
      `saveData:`, and `nil` to `removeData:`. */
  lemma PersistentSaveRoutes(b: Backend, c: Codec, value: Option<Value>)
    ensures value.Some? && c.encode(value.value).Some? ==>
      var w := SaveData(b, c.encode(value.value).value);
      SaveValue(Persistent(b), c, value) == Written(Persistent(w.state), w.outcome)
    ensures value.None? ==>
      SaveValue(Persistent(b), c, value) == Written(Persistent(RemoveData(b).state), RemoveData(b).outcome)
  {
  }

  /** A failing `saveData:` makes the save of a value fail, with a system
      error when the value could be archived, and the previous bytes remain. */
  lemma SaveDataFailureKeepsBytes(b: Backend, c: Codec, v: Value)
    requires b.faults.saveFails
    ensures SaveValue(Persistent(b), c, Some(v)).outcome.Fail?
    ensures c.encode(v).Some? ==> SaveValue(Persistent(b), c, Some(v)).outcome == Fail(System)
    ensures SaveValue(Persistent(b), c, Some(v)).state.backend.data == b.data
  {
  }

  /** A value the codec cannot archive is refused with an internal error
      before any byte primitive runs, so the backend is left as it was. */
  lemma UnarchivableIsInternalError(b: Backend, c: Codec, v: Value)
    requires c.encode(v).None?
    ensures SaveValue(Persistent(b), c, Some(v)) == Written(Persistent(b), Fail(Internal))
  {
  }

  /** Loading decodes the bytes `loadData:` returns. */
  lemma LoadDecodes(b: Backend, c: Codec, v: Value)
    requires !b.faults.loadFails
    requires b.data.Some? && c.decode(b.data.value) == Some(v)
    ensures LoadValue(Persistent(b), c) == Ok(Some(v))
  {
  }

  /** Bytes that do not decode to a lens value produce an internal error, not a value. */
  lemma UndecodableIsInternalError(b: Backend, c: Codec)
    requires !b.faults.loadFails
    requires b.data.Some? && c.decode(b.data.value).None?
    ensures LoadValue(Persistent(b), c) == Err(Internal)
  {
  }

  /** Absent bytes load as `nil`: nothing has been persisted yet. */
  lemma AbsentDataIsNil(b: Backend, c: Codec)
    requires !b.faults.loadFails && b.data.None?
    ensures LoadValue(Persistent(b), c) == Ok(None)
  {
  }

  /** A failing `loadData:` makes the load fail with a system error. */
  lemma LoadDataFailureIsSystemError(b: Backend, c: Codec)
    requires b.faults.loadFails
    ensures LoadValue(Persistent(b), c) == Err(System)
  {
  }

  /** `loadValue:` answers `nil` for an empty store and for a failed load;
      only the error tells the two apart. */
  lemma NilMeansEmptyOrError(s: Store, c: Codec)
    ensures LoadedOrNil(LoadValue(s, c)).None? <==>
      (LoadValue(s, c).Err? || LoadValue(s, c) == Ok(None))
  {
  }

  /** The in-memory store holds exactly what was last saved into it. */
  lemma EphemeralSaveThenLoad(initial: Option<Value>, value: Option<Value>, c: Codec)
    ensures SaveValue(EphemeralStore(initial), c, value).outcome == Pass
    ensures LoadValue(SaveValue(EphemeralStore(initial), c, value).state, c) == Ok(value)
  {
  }
}
